=== FILE: README.md ===
# Book catalogue core, modelled in Dafny

A model of the decision and data logic in a Flask book catalogue. Users browse books, post reviews with ratings and keep selections of books. Administrators and moderators manage the book records and their cover images.

The model covers five parts:

- **Access policy** (`policy.dfy`, `models.dfy`). `UsersPolicy` is a fixed table from (role test, action) to allow or deny. `User.can` looks a rule up by its method name. `is_admin`, `is_moder` and `is_user` compare the user's `role_id` with configured ids.
- **Derived properties** (`models.dfy`, `text.dfy`). These are `Book.rating`, `User.full_name` and `Image.storage_filename`. The last one uses `os.path.splitext`, modelled in `Text.SplitExt`.
- **Query composition** (`queries.dfy`, `sequences.dfy`). `BooksFilter` searches names case-insensitively and lists newest first. `ReviewsFilter` scopes reviews to one book and offers four orderings. The `sort` field of the review listing chooses among them. A result is a sequence of rows: the rows the WHERE clause keeps, each as often as stored, sorted by the ORDER BY column.
- **Content-deduplicating image store** (`images.dfy`). `ImageSaver.save` returns the stored image when one with the same MD5 hash exists. Otherwise it appends exactly one row under a fresh id.
- **Handler state changes** (`books.dfy`, `catalogue.dfy`). These are `apply_review`, `create`, `update` and `delete`. Each maps the catalogue before a request to the catalogue after it, or to the error raised before any write. `create` is the exception: its genre error comes from the last commit, after the book and its image have been committed, so it yields that catalogue together with the error. `delete` relies on the `ondelete='CASCADE'` foreign keys.

The database is an immutable `Catalogue.Store`: one sequence of rows per table, in insertion order. The model uses `real` for the rating average and integers for timestamps. Some values come from the database or from library calls. These are parameters:

- auto-increment ids and the image UUID, each with the freshness precondition the database or generator provides;
- the `now()` timestamp, which is unconstrained: no contract depends on its value;
- `hashlib.md5`, `secure_filename` and `bleach.clean`, as the fields of `ImageStore.Foreign`.

Every policy rule and every query is a function. Evaluating one therefore changes no state.

Some behaviours of the code are easy to misread, and the model follows the code in each:

- Role tests compare `role_id` with configured ids; there is no role enumeration. An unconfigured admin id (`None`) equals a user's absent role id, so such a user passes `is_admin` (`Models.RolelessUserIsAdminWhenUnconfigured`).
- `md5_hash` has no unique constraint, and `save` has no conflict handling or retry. Hash uniqueness is therefore an invariant that `save` preserves (`ImageStore.SaveKeepsHashesUnique`). Nothing enforces it.
- ORDER BY uses one column with no tie-break. The contracts hold for every tie order.
- On a hash hit, `save` leaves the stored image attached to its original book. The new book gets no image, and `delete` then fails on `.one()`. This is proved in `Books.CreatedBookWithoutOwnImageCannotBeDeleted`.
- The policy rules read the logged-in `current_user`, not the user `User.can` is called on (users_policy.py:7-23, models.py:80-85). So `u.can(action)` answers for whoever is logged in, whatever `u` is, and `Policy.Can` takes only that user.
- `apply_review` takes the review's `book_id` from the form but updates the totals of the book in the URL. The model keeps both ids apart.

## Model

| member | source | states |
|---|---|---|
| Policy.Decide | Exam/app/users_policy.py:7-23 | every permission needs the user to pass some role test; with distinct configured ids an admin may do everything except `create_selection` |
| Policy.DecideFollowsGrantTable | Exam/app/users_policy.py:7-23 | a policy decision is true exactly when some role test that the access table grants for that action passes |
| Policy.AdminOnlyActions | Exam/app/users_policy.py:7-20 | `create`, `delete`, `assign_role` and `view` are allowed exactly when the role id equals the configured admin id |
| Policy.UpdateForAdminOrModerator | Exam/app/users_policy.py:13-14 | `update` is allowed exactly when the role id equals the admin id or the moderator id |
| Policy.CreateSelectionForUsersOnly | Exam/app/users_policy.py:22-23 | `create_selection` is allowed exactly to the regular-user role id; with distinct ids an admin is denied it |
| Policy.ModeratorPermissions | Exam/app/users_policy.py:7-23 | with distinct configured ids a moderator may update and is denied create, delete, assign_role, view and create_selection |
| Policy.DecisionIgnoresRecord | Exam/app/users_policy.py:4-5 | no decision depends on the record the policy is constructed with |
| Policy.LookupMethod | Exam/app/models.py:82 | a name resolves only to the rule whose method has that name |
| Policy.LookupFindsEveryRule | Exam/app/models.py:82-84 | every rule is found under its own method name |
| Policy.Can | Exam/app/models.py:80-85 | `can` is true only for one of the six policy method names, and then equals that rule's decision |
| Policy.CanDispatchesByName | Exam/app/models.py:80-85 | a method's name yields that method's decision; any other name is denied |
| Models.RoleTestsExclusive | Exam/app/models.py:65-75 | with distinct configured ids a user passes at most one of `is_admin`, `is_moder`, `is_user` |
| Models.RolelessUserIsAdminWhenUnconfigured | Exam/app/models.py:65-67 | with no admin id configured, a user without a role passes `is_admin` |
| Models.Rating | Exam/app/models.py:27-31 | the rating is 0 with no ratings; otherwise rating times count equals the sum |
| Models.FullName | Exam/app/models.py:61-63 | the full name is last name, space, first name, space, then middle name or nothing, so it ends in a space when there is no middle name |
| Models.StorageFilename | Exam/app/models.py:119-122 | the storage name starts with the image id; the rest is a suffix of the file name that is empty or one dot followed by dot-free text; it is empty exactly when `splitext` finds no extension (no dot after the last slash, or only dots before it in the last component) |
| Text.SplitExt | Exam/app/models.py:121 | stem plus extension is the name; the extension is empty or starts at the last dot of the last path component; it is empty exactly when that component has no dot after a non-dot character |
| Text.ContainsIgnoresCase | Exam/app/tools.py:19 | the name search gives the same answer whatever the letter case of the name or the search text |
| Queries.SearchByName | Exam/app/tools.py:17-19 | the WHERE clause keeps each book, as often as stored, exactly when no name is given or the name contains the text |
| Queries.BooksFilter | Exam/app/tools.py:13-19 | the result holds exactly the selected books, each as often as stored, ordered by `created_at` non-increasing; with unique ids in the table, no book appears twice |
| Queries.BooksFilterWithoutNameKeepsAll | Exam/app/tools.py:13-18 | with an absent or empty name the result is a permutation of all books |
| Queries.EmptyNameSameAsAbsent | Exam/app/tools.py:18 | an empty name and an absent name give the same result |
| Queries.BooksFilterByName | Exam/app/tools.py:17-19 | a non-empty text keeps exactly the books whose name contains it case-insensitively, as a lower-cased text would |
| Queries.ReviewsFilter | Exam/app/tools.py:23-37 | each ordering holds exactly the reviews of the book, each as often as stored, sorted by its column in its direction |
| Queries.OrderingsArePermutations | Exam/app/tools.py:27-37 | the four orderings return the same multiset of reviews |
| Queries.OrderingsSortTheirColumn | Exam/app/tools.py:27-37 | date orderings are non-increasing or non-decreasing in `created_at`; rating orderings are the same in `rating` |
| Queries.SortChoice | Exam/app/books.py:155-163 | date-ascending exactly for `old`, rating-descending exactly for `good`, rating-ascending exactly for `bad`; date-descending for every other value and for none |
| Queries.SortChoiceTable | Exam/app/books.py:155-163 | `new`, `old`, `good` and `bad` select date-desc, date-asc, rating-desc and rating-asc; anything else or nothing selects date-desc |
| Queries.ReviewsSort | Exam/app/books.py:153-167 | the listing holds exactly the book's reviews, each as often as stored, sorted as the chosen ordering says |
| Queries.UnknownSortIsNewest | Exam/app/books.py:155-163 | an unrecognised sort value gives the same listing as `new` |
| ImageStore.FirstWithHash | Exam/app/tools.py:64 | the position found carries the hash and no earlier row does; none is found exactly when no row carries it |
| ImageStore.FindByHash | Exam/app/tools.py:61-64 | the image found is stored and carries the hash; none is found exactly when no stored image carries it |
| ImageStore.Save | Exam/app/tools.py:43-58 | on a hash hit it returns the stored image and leaves the table unchanged; otherwise it appends one row with the fresh id, sanitised name, mime type, hash and book id and leaves the earlier rows unchanged |
| ImageStore.SaveTwiceSameImage | Exam/app/tools.py:43-46 | saving the same bytes twice returns the same image, and the second save changes nothing |
| ImageStore.SaveKeepsHashesUnique | Exam/app/tools.py:43-58 | if content hashes are pairwise distinct before a save, they stay so after it |
| ImageStore.SaveKeepsIdsUnique | Exam/app/tools.py:47-49 | with a fresh UUID, image ids stay pairwise distinct |
| Catalogue.FindBook | Exam/app/books.py:94 | the position found holds a book with the id; none is found exactly when no book has it |
| Catalogue.ImagesOf | Exam/app/books.py:41 | the result holds exactly the images whose `book_id` is the book's id, each as often as stored, so its length is the number of such rows |
| Catalogue.CascadeDeleteKeepsKeysUnique | Exam/app/models.py:91-167 | the cascade keeps book ids and image hashes pairwise different |
| Catalogue.CascadeDelete | Exam/app/models.py:91-167 | no book, review, image, genre link or selection membership of the deleted book remains; every other row stays with its multiplicity; genres and selections are unchanged |
| Books.AddRating | Exam/app/books.py:134-135 | one review adds its rating to the sum and 1 to the count and changes no other field |
| Books.RunningTotals | Exam/app/books.py:134-135 | after n reviews the count has grown by n and the sum by the sum of their ratings, other fields unchanged |
| Books.RatingIsMean | Exam/app/models.py:29-30 | a book that started at zero totals reports the mean of the ratings it received |
| Books.RatingWithinBounds | Exam/app/models.py:27-31 | when every rating lies between lo and hi, so does the average |
| Books.ApplyReview | Exam/app/books.py:130-137 | it fails exactly when the URL's book or the form's book is missing; otherwise only the URL's book totals change, by that rating, and exactly one review with the form's values and cleaned text is appended |
| Books.ReviewKeepsTotals | Exam/app/books.py:130-137 | when the form's book id is the URL's, a review keeps every book's count and sum equal to the number and sum of the ratings of its stored reviews |
| Books.MismatchedReviewBreaksTotals | Exam/app/books.py:132-135 | whenever both books exist and the form names a book other than the URL's, the review succeeds and the URL book's count no longer matches its stored reviews, from any store whose totals matched |
| Books.UpdateKeepsTotals | Exam/app/books.py:98-105 | editing a book keeps every book's totals equal to the count and sum of its stored reviews |
| Books.DeleteKeepsTotals | Exam/app/books.py:39-44 | deleting a book with its reviews keeps every remaining book's totals equal to the count and sum of its stored reviews |
| Books.RatingsOfKept | Exam/app/models.py:91 | the cascade on `reviews.book_id` leaves the ratings of every other book unchanged, in order |
| Books.CreateKeepsTotals | Exam/app/books.py:59-74 | when every review names a stored book, creating a book keeps every book's totals in step; the new book has no reviews and zero totals |
| Books.NewBook | Exam/app/models.py:20-21 | a new book starts with zero totals and rating 0 |
| Books.LatestBook | Exam/app/books.py:64 | the book re-read has the largest id in the table |
| Books.GenreLinks | Exam/app/books.py:68-73 | one link per submitted genre id, in order, each carrying the new book's id |
| Books.FreshLinksKeepJoinIdsUnique | Exam/app/books.py:68-73 | links numbered above every stored link id keep the `join` ids pairwise different |
| Books.InsertAndReread | Exam/app/books.py:60-64 | after the new book is inserted and committed, re-reading the newest book yields exactly that book, since its id is above every stored id |
| Books.Create | Exam/app/books.py:59-74 | exactly one book is appended with the form's fields and zero totals; an image is saved for it only when a named file was sent; with known genres there is one link per genre id and no error, otherwise no link and a genre error; the `join` ids stay pairwise different; other tables are unchanged |
| Books.Update | Exam/app/books.py:93-105 | a missing book fails; otherwise name, cleaned description, house, author and volume take the form's values, and the year, id, totals, other books and tables are unchanged |
| Books.UpdateIntended | Exam/app/books.py:95-104 | as `Update`, but the publication year too takes the form's value |
| Books.UpdateDropsYear | Exam/app/books.py:101 | a year that differs from the stored one is lost by the written update and kept by the intended one |
| Books.UpdateDiffersOnlyInYear | Exam/app/books.py:98-104 | the written update is the intended update with the old year restored |
| Books.CreateKeepsKeysUnique | Exam/app/books.py:59-67 | `create` keeps book ids, image ids and image hashes pairwise different |
| Books.DeleteKeepsKeysUnique | Exam/app/books.py:39-44 | `delete` keeps book ids and image hashes pairwise different |
| Books.Delete | Exam/app/books.py:39-44 | it fails exactly when the book is missing or does not have exactly one image, and succeeds otherwise; on success the result is the cascade delete, so nothing of the book remains, every row of other books keeps its count and nothing is added |
| Books.CreatedBookWithoutOwnImageCannotBeDeleted | Exam/app/books.py:40-41 | a book created without a named file, or with already-stored bytes, cannot be deleted |

## Left out

- Flask routing, templates, `flash`, `redirect`, `login_required` and `check_rights` are framework plumbing. The `auth` module is not part of this model.
- `paginate` and the page size constants are left out, because the library's page semantics are not visible here. Results are modelled as whole sequences.
- The `reviews` GET listing (books.py:141-149) always uses the newest-first ordering. It is not modelled separately; it equals `Queries.ReviewsFilter` with `DateDesc`.
- The `show`, `edit` and `new` handlers only read and render, so they are not modelled.
- File-system effects are I/O and are left out: `file.save`, `os.remove` and the path joining in `delete`.
- The internals of MD5, UUID generation, `secure_filename`, `bleach.clean`, `markdown` and password hashing are library code. They appear as uninterpreted parameters.
- Policy.Can: `getattr` also resolves attributes other than the six policy methods, such as `record` and inherited methods. The model treats only the six method names as rules and denies every other name.
- Queries.NameMatches: `ilike` wildcards (`%`, `_` inside the search text) and non-ASCII case folding are not modelled. The search text is matched literally with ASCII case folding.
- Text.SplitExt: models POSIX `splitext`, where only `/` separates path components. On Windows `\` would separate them too. The name it receives has already been sanitised, so no separator can occur in it.
- Models.Rating: uses exact `real` division instead of IEEE floating point.
- Integer columns are unbounded, and string lengths (`String(100)`) are not enforced.
- Books.ApplyReview: the `int()` conversion of the form's rating is not modelled. The rating arrives as an integer. The foreign key on `user_id` is not checked, because the `users` table is not part of this model.
- Books.Create: failures of the first commit (NOT NULL columns missing from the form) are not modelled. The form supplies every field.
- Books.Update: the form supplies every field. A missing `short_desc` would make `bleach.clean(None)` raise, and a missing `name` would fail the NOT NULL constraint at commit (books.py:98-105). Neither error path is modelled.
- Books.ApplyReview: keeps the totals in step with the stored reviews only when the form's `book_id` equals the URL's book id (`Books.ReviewKeepsTotals`). The handler does not check this, and `Books.MismatchedReviewBreaksTotals` shows the totals drifting when the ids differ. The invariant also assumes reviews are only inserted: no handler edits or deletes a single review. `update`, `delete` and `create` keep it (`Books.UpdateKeepsTotals`, `Books.DeleteKeepsTotals`, `Books.CreateKeepsTotals`); `create` needs every review to name a stored book, as the foreign key demands of a non-null `book_id`.
- Books.ApplyReview: the form always carries a `book_id`. Without one, `review_params` yields `None`, the review is stored with a NULL `book_id` (the foreign key accepts NULL), and the URL book's totals still grow (books.py:132-135). `ReviewForm.bookId` is an `int`, so this case cannot be expressed.
- Books.ApplyReview: the form carries every `REVIEW_PARAMS` field. Without `text`, `bleach.clean(None)` raises before any write (books.py:133). Without `user_id`, the review is stored with a NULL `user_id`. `ReviewForm` has no absent fields, so neither case can be expressed.
- The `book_id` columns of `reviews`, `images`, `join` and `book_selection` and the `user_id` column of `reviews` are nullable (models.py:91,92,110,141,167) but are modelled as `int`. Rows without a book or user are not represented, so no contract speaks about them.
- Image `object_id`/`object_type` columns are unused by the core and omitted.
- ImageStore.FindByHash: `.first()` without ORDER BY may return any matching row. The model returns the first in table order. With distinct hashes (`ImageStore.SaveKeepsHashesUnique`) there is only one match.
- Concurrent duplicate uploads are left out: the code has no handling for them.
- Cascades from deleting users or genres are left out, because no core operation deletes them.

## Findings

| source | as written | input that shows it | evidently intended | confidence | as-written member | corrected member |
|---|---|---|---|---|---|---|
| Exam/app/books.py:101 | the year is assigned to the misspelt attribute `publiation_year`, which is not a column, so the edited year is never stored | any existing book and a form whose `publication_year` differs from the stored year | `update` stores the form's year like the other five fields | high (not executed) | Books.UpdateDropsYear | Books.UpdateIntended |

=== FILE: books.dfy ===
/**
 * The state changes of the book handlers: posting a review, creating,
 * editing and deleting a book. Each takes the catalogue before the request
 * and yields the catalogue after it, or the error the handler raises
 * before it writes anything. `create` is the exception: its genre error
 * comes after the book and its image have been committed, so it yields
 * that catalogue together with the error.
 *
 * Database-generated values (auto-increment ids, `now()` timestamps) and
 * the UUID of a new image are parameters. Ids and the UUID carry the
 * freshness the database or the UUID generator provides as a precondition;
 * timestamps are unconstrained.
 */
module Books {
  import opened Wrappers
  import opened Models
  import opened Catalogue
  import ImageStore

  /** The fields of the review form (`REVIEW_PARAMS`), the rating already an integer. */
  datatype ReviewForm = ReviewForm(bookId: int, userId: int, rating: int, text: string)

  /** The fields of the book form (`BOOK_PARAMS`). */
  datatype BookForm = BookForm(
    name: string,
    shortDesc: string,
    publicationYear: int,
    publishingHouse: string,
    author: string,
    volume: int)

  // ---------------------------------------------------------------------------
  // Rating totals

  /** One review's contribution to a book's running totals. */
  function AddRating(b: Book, rating: int): (r: Book)
    ensures r.ratingSum - b.ratingSum == rating && r.ratingNum - b.ratingNum == 1
    ensures r.(ratingSum := b.ratingSum, ratingNum := b.ratingNum) == b
  {
    b.(ratingSum := b.ratingSum + rating, ratingNum := b.ratingNum + 1)
  }

  /** The sum of a sequence of ratings. */
  function Sum(rs: seq<int>): int {
    if |rs| == 0 then 0 else rs[0] + Sum(rs[1..])
  }

  /** The book after its totals have taken the ratings `rs`, in order. */
  function AddRatings(b: Book, rs: seq<int>): Book
    decreases |rs|
  {
    if |rs| == 0 then b else AddRatings(AddRating(b, rs[0]), rs[1..])
  }

  /** After `n` reviews the count has grown by `n` and the sum by the sum of their ratings. */
  lemma {:induction false} RunningTotals(b: Book, rs: seq<int>)
    ensures AddRatings(b, rs).ratingNum == b.ratingNum + |rs|
    ensures AddRatings(b, rs).ratingSum == b.ratingSum + Sum(rs)
    ensures AddRatings(b, rs).(ratingSum := b.ratingSum, ratingNum := b.ratingNum) == b
    decreases |rs|
  {
    if |rs| > 0 {
      RunningTotals(AddRating(b, rs[0]), rs[1..]);
    }
  }

  /** A book that starts at zero totals has as its rating the mean of the ratings it received. */
  lemma RatingIsMean(b: Book, rs: seq<int>)
    requires b.ratingSum == 0 && b.ratingNum == 0
    requires |rs| > 0
    ensures Rating(AddRatings(b, rs)) == (Sum(rs) as real) / (|rs| as real)
  {
    RunningTotals(b, rs);
  }

  /** The sum of ratings that all lie in `[lo, hi]` lies between `n * lo` and `n * hi`. */
  lemma {:induction false} SumBounds(rs: seq<int>, lo: int, hi: int)
    requires forall i | 0 <= i < |rs| :: lo <= rs[i] <= hi
    ensures |rs| * lo <= Sum(rs) <= |rs| * hi
  {
    if |rs| > 0 {
      SumBounds(rs[1..], lo, hi);
    }
  }

  /** When every rating lies in `[lo, hi]`, so does the average a fresh book reports. */
  lemma RatingWithinBounds(b: Book, rs: seq<int>, lo: int, hi: int)
    requires b.ratingSum == 0 && b.ratingNum == 0
    requires |rs| > 0
    requires forall i | 0 <= i < |rs| :: lo <= rs[i] <= hi
    ensures lo as real <= Rating(AddRatings(b, rs)) <= hi as real
  {
    RatingIsMean(b, rs);
    SumBounds(rs, lo, hi);
    MeanBounds(Sum(rs), |rs|, lo, hi);
  }

  /** A sum of `n` values between `n * lo` and `n * hi` has a mean between `lo` and `hi`. */
  lemma MeanBounds(sum: int, n: int, lo: int, hi: int)
    requires n > 0
    requires n * lo <= sum <= n * hi
    ensures lo as real <= (sum as real) / (n as real) <= hi as real
  {
    var m := (sum as real) / (n as real);
    assert m * (n as real) == sum as real;
    assert (n * lo) as real == (lo as real) * (n as real);
    assert (n * hi) as real == (hi as real) * (n as real);
    CancelPositive(lo as real, m, n as real);
    CancelPositive(m, hi as real, n as real);
  }

  /** Dividing both sides of an inequality by a positive number keeps it. */
  lemma CancelPositive(a: real, b: real, n: real)
    requires n > 0.0 && a * n <= b * n
    ensures a <= b
  {
    assert (b - a) * n == b * n - a * n;
    assert b - a == (b * n - a * n) / n;
  }

  // ---------------------------------------------------------------------------
  // apply_review

  /**
   * `apply_review(bookId)`: adds the posted review and the review's rating
   * to the totals of book `bookId`. The review row takes its book id from
   * the form, the totals from the URL. A missing book makes the handler
   * fail on `None`; a form book id without a book makes the commit fail;
   * both leave the catalogue as it was.
   */
  function ApplyReview(s: Store, lib: ImageStore.Foreign, bookId: int, form: ReviewForm,
                       newId: int, now: int): (r: Result<Store, Error>)
    requires forall rv | rv in s.reviews :: rv.id != newId
    ensures r == Err(NoSuchBook) <==> FindBook(s.books, bookId).None?
    ensures r == Err(UnknownBook) <==> FindBook(s.books, bookId).Some? && FindBook(s.books, form.bookId).None?
    ensures r.Ok? <==> FindBook(s.books, bookId).Some? && FindBook(s.books, form.bookId).Some?
    ensures r.Ok? ==>
              var k := FindBook(s.books, bookId).value;
              var t := r.value;
              && |t.books| == |s.books|
              && t.books[k] == AddRating(s.books[k], form.rating)
              && (forall i | 0 <= i < |s.books| && i != k :: t.books[i] == s.books[i])
              && |t.reviews| == |s.reviews| + 1
              && t.reviews[..|s.reviews|] == s.reviews
              && t.reviews[|s.reviews|] == Review(newId, form.bookId, form.userId, form.rating, lib.clean(form.text), now)
              && t.(books := s.books, reviews := s.reviews) == s
  {
    match FindBook(s.books, bookId)
    case None => Err(NoSuchBook)
    case Some(k) =>
      if FindBook(s.books, form.bookId).None? then Err(UnknownBook)
      else
        var review := Review(newId, form.bookId, form.userId, form.rating, lib.clean(form.text), now);
        Ok(s.(books := s.books[k := AddRating(s.books[k], form.rating)],
              reviews := s.reviews + [review]))
  }

  /** Appending a rating adds it to the sum. */
  lemma {:induction false} SumAppend(rs: seq<int>, x: int)
    ensures Sum(rs + [x]) == Sum(rs) + x
  {
    if |rs| > 0 {
      assert (rs + [x])[1..] == rs[1..] + [x];
      SumAppend(rs[1..], x);
    }
  }

  /** The ratings of the stored reviews of book `bookId`, in table order. */
  function RatingsOf(reviews: seq<Review>, bookId: int): (rs: seq<int>)
    ensures |rs| <= |reviews|
    ensures (forall rv | rv in reviews :: rv.bookId != bookId) ==> rs == []
  {
    if |reviews| == 0 then []
    else
      var init := reviews[..|reviews| - 1];
      var last := reviews[|reviews| - 1];
      assert forall rv | rv in init :: rv in reviews;
      if last.bookId == bookId then RatingsOf(init, bookId) + [last.rating]
      else RatingsOf(init, bookId)
  }

  /** A new review adds its rating to the ratings of its own book only. */
  lemma RatingsOfAppend(reviews: seq<Review>, rv: Review, bookId: int)
    ensures RatingsOf(reviews + [rv], bookId)
            == RatingsOf(reviews, bookId) + (if rv.bookId == bookId then [rv.rating] else [])
  {
    assert (reviews + [rv])[..|reviews|] == reviews;
  }

  /** A review placed before the others contributes its rating first, to its own book only. */
  lemma {:induction false} RatingsOfPrepend(x: Review, reviews: seq<Review>, bookId: int)
    ensures RatingsOf([x] + reviews, bookId)
            == (if x.bookId == bookId then [x.rating] else []) + RatingsOf(reviews, bookId)
    decreases |reviews|
  {
    if |reviews| == 0 {
      assert [x] + reviews == [] + [x];
      RatingsOfAppend([], x, bookId);
    } else {
      var init := reviews[..|reviews| - 1];
      var last := reviews[|reviews| - 1];
      var ex := if x.bookId == bookId then [x.rating] else [];
      var el := if last.bookId == bookId then [last.rating] else [];
      assert reviews == init + [last];
      calc {
        RatingsOf([x] + reviews, bookId);
        { assert [x] + reviews == ([x] + init) + [last]; }
        RatingsOf(([x] + init) + [last], bookId);
        { RatingsOfAppend([x] + init, last, bookId); }
        RatingsOf([x] + init, bookId) + el;
        { RatingsOfPrepend(x, init, bookId); }
        (ex + RatingsOf(init, bookId)) + el;
        ex + (RatingsOf(init, bookId) + el);
        { RatingsOfAppend(init, last, bookId); }
        ex + RatingsOf(reviews, bookId);
      }
    }
  }

  /** Deleting book `id` with its reviews leaves the ratings of every other book as they were. */
  lemma {:induction false} RatingsOfKept(reviews: seq<Review>, id: int, other: int)
    requires other != id
    ensures RatingsOf(KeptReviews(reviews, id), other) == RatingsOf(reviews, other)
    decreases |reviews|
  {
    if |reviews| > 0 {
      var x := reviews[0];
      var rest := reviews[1..];
      assert reviews == [x] + rest;
      RatingsOfKept(rest, id, other);
      RatingsOfPrepend(x, rest, other);
      if ReviewKept(id, x) {
        assert KeptReviews(reviews, id) == [x] + KeptReviews(rest, id);
        RatingsOfPrepend(x, KeptReviews(rest, id), other);
      } else {
        assert KeptReviews(reviews, id) == KeptReviews(rest, id);
      }
    }
  }

  /**
   * Every book's running totals agree with its stored reviews: the count is
   * the number of reviews carrying its id, the sum the sum of their ratings.
   */
  ghost predicate TotalsMatchReviews(s: Store) {
    forall b | b in s.books ::
      b.ratingNum == |RatingsOf(s.reviews, b.id)| && b.ratingSum == Sum(RatingsOf(s.reviews, b.id))
  }

  /** A review filed under the book it rates keeps every book's totals in step with the reviews. */
  lemma ReviewKeepsTotals(s: Store, lib: ImageStore.Foreign, bookId: int, form: ReviewForm, newId: int, now: int)
    requires forall rv | rv in s.reviews :: rv.id != newId
    requires UniqueBookIds(s.books)
    requires TotalsMatchReviews(s)
    requires form.bookId == bookId
    ensures ApplyReview(s, lib, bookId, form, newId, now).Ok? ==>
              TotalsMatchReviews(ApplyReview(s, lib, bookId, form, newId, now).value)
  {
    var r := ApplyReview(s, lib, bookId, form, newId, now);
    if r.Ok? {
      var t := r.value;
      var k := FindBook(s.books, bookId).value;
      var rv := t.reviews[|s.reviews|];
      assert t.reviews == s.reviews + [rv];
      forall b | b in t.books
        ensures b.ratingNum == |RatingsOf(t.reviews, b.id)| && b.ratingSum == Sum(RatingsOf(t.reviews, b.id))
      {
        var i :| 0 <= i < |t.books| && t.books[i] == b;
        RatingsOfAppend(s.reviews, rv, b.id);
        assert s.books[i] in s.books;
        if i == k {
          SumAppend(RatingsOf(s.reviews, b.id), form.rating);
        } else {
          assert s.books[i].id != bookId;
        }
      }
    }
  }

  /**
   * A review posted to one book with a form naming another book raises the
   * first book's count while the review is filed under the second: the
   * totals no longer match the reviews.
   */
  lemma MismatchedReviewBreaksTotals(s: Store, lib: ImageStore.Foreign, bookId: int, form: ReviewForm,
                                     newId: int, now: int)
    requires forall rv | rv in s.reviews :: rv.id != newId
    requires TotalsMatchReviews(s)
    requires FindBook(s.books, bookId).Some? && FindBook(s.books, form.bookId).Some?
    requires form.bookId != bookId
    ensures ApplyReview(s, lib, bookId, form, newId, now).Ok?
    ensures !TotalsMatchReviews(ApplyReview(s, lib, bookId, form, newId, now).value)
  {
    var t := ApplyReview(s, lib, bookId, form, newId, now).value;
    var k := FindBook(s.books, bookId).value;
    var rv := t.reviews[|s.reviews|];
    assert t.reviews == s.reviews + [rv];
    RatingsOfAppend(s.reviews, rv, bookId);
    assert s.books[k] in s.books;
    assert t.books[k] in t.books;
    assert t.books[k].ratingNum != |RatingsOf(t.reviews, t.books[k].id)|;
  }

  // ---------------------------------------------------------------------------
  // create

  /** The book `Book(**params())` inserts, its description cleaned; totals start at zero. */
  function NewBook(id: int, form: BookForm, lib: ImageStore.Foreign, now: int): (b: Book)
    ensures b.ratingSum == 0 && b.ratingNum == 0 && Rating(b) == 0.0
  {
    Book(id, form.name, lib.clean(form.shortDesc), form.publicationYear, form.publishingHouse,
         form.author, form.volume, 0, 0, now)
  }

  /** `Book.query.order_by(Book.id.desc()).first()`: the book with the largest id. */
  function LatestBook(books: seq<Book>): (r: Book)
    requires |books| > 0
    ensures r in books
    ensures forall b | b in books :: b.id <= r.id
  {
    if |books| == 1 then books[0]
    else
      var rest := LatestBook(books[1..]);
      assert books == [books[0]] + books[1..];
      if books[0].id >= rest.id then books[0] else rest
  }

  /** After a book with an id above every stored id is inserted, it is the newest book. */
  lemma LatestIsFreshBook(books: seq<Book>, b: Book)
    requires AboveAllBookIds(books, b.id)
    ensures LatestBook(books + [b]) == b
  {
    var r := LatestBook(books + [b]);
    assert b in books + [b];
    assert r.id >= b.id;
    assert r !in books;
    assert r == b;
  }

  /**
   * Inserts `b`, commits and re-reads the newest book, as `create` does
   * before it saves the image: the book read back is the one inserted.
   */
  function InsertAndReread(books: seq<Book>, b: Book): (r: (seq<Book>, Book))
    requires AboveAllBookIds(books, b.id)
    ensures |r.0| == |books| + 1 && r.0[..|books|] == books && r.0[|books|] == b
    ensures r.1 == b
  {
    var all := books + [b];
    LatestIsFreshBook(books, b);
    assert all[..|books|] == books;
    (all, LatestBook(all))
  }

  /** Whether the request carries an uploaded file with a non-empty name (`if f and f.filename`). */
  predicate HasFile(file: Option<ImageStore.Upload>) {
    file.Some? && file.value.filename != ""
  }

  /** The genre-link rows created for the submitted genre ids, numbered from `firstId`. */
  function GenreLinks(bookId: int, genreIds: seq<int>, firstId: int): (links: seq<Join>)
    ensures |links| == |genreIds|
    ensures forall i | 0 <= i < |genreIds| :: links[i].bookId == bookId && links[i].genreId == genreIds[i]
    ensures forall i | 0 <= i < |genreIds| :: links[i].id == firstId + i
  {
    seq(|genreIds|, i requires 0 <= i < |genreIds| => Join(firstId + i, bookId, genreIds[i]))
  }

  /** Links numbered from an id above every stored link id keep the link ids pairwise different. */
  lemma FreshLinksKeepJoinIdsUnique(joins: seq<Join>, bookId: int, genreIds: seq<int>, firstId: int)
    requires forall j | j in joins :: j.id < firstId
    requires UniqueJoinIds(joins)
    ensures UniqueJoinIds(joins + GenreLinks(bookId, genreIds, firstId))
  {
    var t := joins + GenreLinks(bookId, genreIds, firstId);
    forall i, j | 0 <= i < |t| && 0 <= j < |t| && t[i].id == t[j].id ensures i == j {
      if i < |joins| {
        assert joins[i] in joins;
      }
      if j < |joins| {
        assert joins[j] in joins;
      }
    }
  }

  /** `after` is `before` followed by one link of book `bookId` per genre id, in order. */
  ghost predicate LinksAppended(before: seq<Join>, after: seq<Join>, bookId: int, genreIds: seq<int>) {
    && |after| == |before| + |genreIds|
    && after[..|before|] == before
    && forall i | 0 <= i < |genreIds| ::
         after[|before| + i].bookId == bookId && after[|before| + i].genreId == genreIds[i]
  }

  /** The `join` table after the links for `genreIds` are added, numbered from `firstId`. */
  function AddLinks(joins: seq<Join>, bookId: int, genreIds: seq<int>, firstId: int): (r: seq<Join>)
    requires forall j | j in joins :: j.id < firstId
    ensures LinksAppended(joins, r, bookId, genreIds)
    ensures UniqueJoinIds(joins) ==> UniqueJoinIds(r)
  {
    var links := GenreLinks(bookId, genreIds, firstId);
    var r := joins + links;
    assert r[..|joins|] == joins;
    assert forall i | 0 <= i < |genreIds| :: r[|joins| + i] == links[i];
    assert UniqueJoinIds(joins) ==> UniqueJoinIds(r) by {
      if UniqueJoinIds(joins) {
        FreshLinksKeepJoinIdsUnique(joins, bookId, genreIds, firstId);
      }
    }
    r
  }

  /** Every submitted genre id names a genre row. */
  predicate GenresKnown(genres: seq<Genre>, genreIds: seq<int>) {
    forall i | 0 <= i < |genreIds| :: exists g | g in genres :: g.id == genreIds[i]
  }

  /** The catalogue after `create`, and the error of its last commit if that failed. */
  datatype Created = Created(store: Store, error: Option<Error>)

  /**
   * `create()`: inserts the book and commits; re-reads the newest book;
   * saves the uploaded image for it when a named file was sent; then adds
   * one genre link per submitted genre id and commits again. A genre id
   * without a genre row makes that second commit fail: the book and image
   * stay, no link is added.
   */
  function Create(s: Store, lib: ImageStore.Foreign, form: BookForm, file: Option<ImageStore.Upload>,
                  genreIds: seq<int>, newBookId: int, now: int, newImageId: string, firstJoinId: int): (c: Created)
    requires AboveAllBookIds(s.books, newBookId)
    requires forall img | img in s.images :: img.id != newImageId
    requires forall j | j in s.joins :: j.id < firstJoinId
    ensures var t := c.store;
            && |t.books| == |s.books| + 1
            && t.books[..|s.books|] == s.books
            && t.books[|s.books|] == NewBook(newBookId, form, lib, now)
    ensures c.store.images == (if HasFile(file)
                                 then ImageStore.Save(s.images, lib, file.value, newBookId, newImageId).images
                                 else s.images)
    ensures GenresKnown(s.genres, genreIds) ==>
              c.error.None? && LinksAppended(s.joins, c.store.joins, newBookId, genreIds)
    ensures UniqueJoinIds(s.joins) ==> UniqueJoinIds(c.store.joins)
    ensures !GenresKnown(s.genres, genreIds) ==> c.error == Some(UnknownGenre) && c.store.joins == s.joins
    ensures c.store.(books := s.books, images := s.images, joins := s.joins) == s
  {
    var book := NewBook(newBookId, form, lib, now);
    var (books, latest) := InsertAndReread(s.books, book);
    assert latest == book && books == s.books + [book];
    var images :=
      if HasFile(file) then ImageStore.Save(s.images, lib, file.value, latest.id, newImageId).images
      else s.images;
    var saved := s.(books := books, images := images);
    if GenresKnown(s.genres, genreIds) then
      Created(saved.(joins := AddLinks(s.joins, latest.id, genreIds, firstJoinId)), None)
    else
      Created(saved, Some(UnknownGenre))
  }

  // ---------------------------------------------------------------------------
  // update

  /**
   * `update(bookId)` as written: copies name, cleaned description,
   * publishing house, author and volume from the form. The year is
   * assigned to a misspelt attribute (`publiation_year`) that is not a
   * column, so the stored year never changes.
   */
  function Update(s: Store, lib: ImageStore.Foreign, bookId: int, form: BookForm): (r: Result<Store, Error>)
    ensures r.Err? <==> FindBook(s.books, bookId).None?
    ensures r.Err? ==> r.error == NoSuchBook
    ensures r.Ok? ==> |r.value.books| == |s.books|
    ensures r.Ok? ==>
              var k := FindBook(s.books, bookId).value;
              var before := s.books[k];
              var b := r.value.books[k];
              && b.name == form.name && b.shortDesc == lib.clean(form.shortDesc)
              && b.publishingHouse == form.publishingHouse && b.author == form.author
              && b.volume == form.volume
              && b.publicationYear == before.publicationYear
              && b.id == before.id && b.createdAt == before.createdAt
              && b.ratingSum == before.ratingSum && b.ratingNum == before.ratingNum
              && (forall i | 0 <= i < |s.books| && i != k :: r.value.books[i] == s.books[i])
              && r.value.(books := s.books) == s
  {
    match FindBook(s.books, bookId)
    case None => Err(NoSuchBook)
    case Some(k) =>
      var b := s.books[k];
      var edited := b.(name := form.name, shortDesc := lib.clean(form.shortDesc),
                       publishingHouse := form.publishingHouse, author := form.author,
                       volume := form.volume);
      Ok(s.(books := s.books[k := edited]))
  }

  /** `update(bookId)` as evidently intended: every field of the form, the year included, is written. */
  function UpdateIntended(s: Store, lib: ImageStore.Foreign, bookId: int, form: BookForm): (r: Result<Store, Error>)
    ensures r.Err? <==> FindBook(s.books, bookId).None?
    ensures r.Ok? ==> |r.value.books| == |s.books|
    ensures r.Ok? ==>
              var k := FindBook(s.books, bookId).value;
              var b := r.value.books[k];
              && b.name == form.name && b.shortDesc == lib.clean(form.shortDesc)
              && b.publicationYear == form.publicationYear
              && b.publishingHouse == form.publishingHouse && b.author == form.author
              && b.volume == form.volume
              && b.(name := s.books[k].name, shortDesc := s.books[k].shortDesc,
                    publicationYear := s.books[k].publicationYear,
                    publishingHouse := s.books[k].publishingHouse,
                    author := s.books[k].author, volume := s.books[k].volume) == s.books[k]
              && (forall i | 0 <= i < |s.books| && i != k :: r.value.books[i] == s.books[i])
              && r.value.(books := s.books) == s
  {
    match FindBook(s.books, bookId)
    case None => Err(NoSuchBook)
    case Some(k) =>
      var b := s.books[k];
      var edited := b.(name := form.name, shortDesc := lib.clean(form.shortDesc),
                       publicationYear := form.publicationYear,
                       publishingHouse := form.publishingHouse, author := form.author,
                       volume := form.volume);
      Ok(s.(books := s.books[k := edited]))
  }

  /** The written update drops a changed year: the edited book keeps its old year, not the form's. */
  lemma UpdateDropsYear(s: Store, lib: ImageStore.Foreign, bookId: int, form: BookForm)
    requires FindBook(s.books, bookId).Some?
    requires form.publicationYear != s.books[FindBook(s.books, bookId).value].publicationYear
    ensures Update(s, lib, bookId, form).Ok?
    ensures Update(s, lib, bookId, form).value.books[FindBook(s.books, bookId).value].publicationYear
            != form.publicationYear
    ensures UpdateIntended(s, lib, bookId, form).value.books[FindBook(s.books, bookId).value].publicationYear
            == form.publicationYear
  {
  }

  /** The two updates differ in the year alone: restoring the old year in the intended result gives the written one. */
  lemma UpdateDiffersOnlyInYear(s: Store, lib: ImageStore.Foreign, bookId: int, form: BookForm)
    requires FindBook(s.books, bookId).Some?
    ensures var k := FindBook(s.books, bookId).value;
            var intended := UpdateIntended(s, lib, bookId, form).value;
            Update(s, lib, bookId, form)
            == Ok(intended.(books := intended.books[k := intended.books[k].(publicationYear := s.books[k].publicationYear)]))
  {
    var k := FindBook(s.books, bookId).value;
    var intended := UpdateIntended(s, lib, bookId, form).value;
    var written := Update(s, lib, bookId, form).value;
    assert intended.books[k].(publicationYear := s.books[k].publicationYear) == written.books[k];
    assert intended.books[k := written.books[k]] == written.books;
  }

  // ---------------------------------------------------------------------------
  // delete

  /**
   * `delete(bookId)`: `.one()` demands the book and exactly one image of
   * it; then the book row is removed and the cascading foreign keys remove
   * its reviews, images, genre links and selection memberships.
   */
  function Delete(s: Store, bookId: int): (r: Result<Store, Error>)
    ensures r == Err(NoSuchBook) <==> FindBook(s.books, bookId).None?
    ensures r == Err(ImageCountNotOne) <==> FindBook(s.books, bookId).Some? && |ImagesOf(s.images, bookId)| != 1
    ensures r.Ok? <==> FindBook(s.books, bookId).Some? && |ImagesOf(s.images, bookId)| == 1
    ensures r.Ok? ==> r.value == CascadeDelete(s, bookId)
  {
    if FindBook(s.books, bookId).None? then Err(NoSuchBook)
    else if |ImagesOf(s.images, bookId)| != 1 then Err(ImageCountNotOne)
    else Ok(CascadeDelete(s, bookId))
  }

  /** Creating a book keeps the book ids, image ids and image hashes pairwise different. */
  lemma CreateKeepsKeysUnique(s: Store, lib: ImageStore.Foreign, form: BookForm, file: Option<ImageStore.Upload>,
                              genreIds: seq<int>, newBookId: int, now: int, newImageId: string, firstJoinId: int)
    requires AboveAllBookIds(s.books, newBookId)
    requires forall img | img in s.images :: img.id != newImageId
    requires forall j | j in s.joins :: j.id < firstJoinId
    requires UniqueBookIds(s.books) && UniqueImageIds(s.images) && UniqueHashes(s.images)
    ensures var t := Create(s, lib, form, file, genreIds, newBookId, now, newImageId, firstJoinId).store;
            UniqueBookIds(t.books) && UniqueImageIds(t.images) && UniqueHashes(t.images)
  {
    var t := Create(s, lib, form, file, genreIds, newBookId, now, newImageId, firstJoinId).store;
    var b := NewBook(newBookId, form, lib, now);
    assert t.books == s.books + [b];
    AppendFreshBookKeepsIdsUnique(s.books, b);
    if HasFile(file) {
      ImageStore.SaveKeepsHashesUnique(s.images, lib, file.value, newBookId, newImageId);
      ImageStore.SaveKeepsIdsUnique(s.images, lib, file.value, newBookId, newImageId);
    }
  }

  /** Deleting a book keeps the book ids and image hashes pairwise different. */
  lemma DeleteKeepsKeysUnique(s: Store, bookId: int)
    requires UniqueBookIds(s.books) && UniqueHashes(s.images)
    ensures Delete(s, bookId).Ok? ==>
              UniqueBookIds(Delete(s, bookId).value.books) && UniqueHashes(Delete(s, bookId).value.images)
  {
    CascadeDeleteKeepsKeysUnique(s, bookId);
  }

  /** Editing a book leaves every book's totals in step with the reviews. */
  lemma UpdateKeepsTotals(s: Store, lib: ImageStore.Foreign, bookId: int, form: BookForm)
    requires TotalsMatchReviews(s)
    ensures Update(s, lib, bookId, form).Ok? ==> TotalsMatchReviews(Update(s, lib, bookId, form).value)
  {
    var r := Update(s, lib, bookId, form);
    if r.Ok? {
      var t := r.value;
      forall b | b in t.books
        ensures b.ratingNum == |RatingsOf(t.reviews, b.id)| && b.ratingSum == Sum(RatingsOf(t.reviews, b.id))
      {
        var i :| 0 <= i < |t.books| && t.books[i] == b;
        assert s.books[i] in s.books;
      }
    }
  }

  /** Deleting a book with its reviews leaves every remaining book's totals in step with the reviews. */
  lemma DeleteKeepsTotals(s: Store, bookId: int)
    requires TotalsMatchReviews(s)
    ensures Delete(s, bookId).Ok? ==> TotalsMatchReviews(Delete(s, bookId).value)
  {
    var r := Delete(s, bookId);
    if r.Ok? {
      var t := r.value;
      assert t.reviews == KeptReviews(s.reviews, bookId);
      forall b | b in t.books
        ensures b.ratingNum == |RatingsOf(t.reviews, b.id)| && b.ratingSum == Sum(RatingsOf(t.reviews, b.id))
      {
        assert b in s.books && b.id != bookId;
        RatingsOfKept(s.reviews, bookId, b.id);
      }
    }
  }

  /** Every review row names an existing book (the `reviews.book_id` foreign key). */
  ghost predicate ReviewsReferToBooks(s: Store) {
    forall rv | rv in s.reviews :: exists b | b in s.books :: b.id == rv.bookId
  }

  /** A new book starts with no reviews and zero totals, so creating it keeps every book's totals in step. */
  lemma CreateKeepsTotals(s: Store, lib: ImageStore.Foreign, form: BookForm, file: Option<ImageStore.Upload>,
                          genreIds: seq<int>, newBookId: int, now: int, newImageId: string, firstJoinId: int)
    requires AboveAllBookIds(s.books, newBookId)
    requires forall img | img in s.images :: img.id != newImageId
    requires forall j | j in s.joins :: j.id < firstJoinId
    requires ReviewsReferToBooks(s)
    requires TotalsMatchReviews(s)
    ensures TotalsMatchReviews(Create(s, lib, form, file, genreIds, newBookId, now, newImageId, firstJoinId).store)
  {
    var t := Create(s, lib, form, file, genreIds, newBookId, now, newImageId, firstJoinId).store;
    var nb := NewBook(newBookId, form, lib, now);
    assert t.books == s.books + [nb];
    assert t.reviews == s.reviews;
    forall rv | rv in s.reviews ensures rv.bookId != newBookId {
      var b :| b in s.books && b.id == rv.bookId;
    }
    assert RatingsOf(s.reviews, newBookId) == [];
  }

  /** Every image row names an existing book (the `images.book_id` foreign key). */
  ghost predicate ImagesReferToBooks(s: Store) {
    forall img | img in s.images :: exists b | b in s.books :: b.id == img.bookId
  }

  /**
   * A book created without a named file, or with the bytes of an image
   * already stored, owns no image, so deleting it fails at `.one()`.
   */
  lemma CreatedBookWithoutOwnImageCannotBeDeleted(
    s: Store, lib: ImageStore.Foreign, form: BookForm, file: Option<ImageStore.Upload>,
    genreIds: seq<int>, newBookId: int, now: int, newImageId: string, firstJoinId: int)
    requires AboveAllBookIds(s.books, newBookId)
    requires forall img | img in s.images :: img.id != newImageId
    requires forall j | j in s.joins :: j.id < firstJoinId
    requires ImagesReferToBooks(s)
    requires !HasFile(file) || ImageStore.FindByHash(s.images, lib.md5Hex(file.value.content)).Some?
    ensures Delete(Create(s, lib, form, file, genreIds, newBookId, now, newImageId, firstJoinId).store, newBookId)
            == Err(ImageCountNotOne)
  {
    var c := Create(s, lib, form, file, genreIds, newBookId, now, newImageId, firstJoinId);
    var t := c.store;
    assert t.images == s.images;
    forall img | img in t.images ensures img.bookId != newBookId {
      var b :| b in s.books && b.id == img.bookId;
    }
    assert |ImagesOf(t.images, newBookId)| == 0;
    assert t.books[|s.books|].id == newBookId;
    assert FindBook(t.books, newBookId).Some?;
  }
}

=== FILE: catalogue.dfy ===
/**
 * The catalogue database as immutable tables, each a sequence of rows in
 * insertion order, with the lookups the handlers issue and the cascade the
 * `ondelete='CASCADE'` foreign keys perform when a book row is removed.
 */
module Catalogue {
  import opened Wrappers
  import opened Models
  import Sequences

  /** The tables the catalogue's handlers read and write. */
  datatype Store = Store(
    books: seq<Book>,
    reviews: seq<Review>,
    images: seq<Image>,
    genres: seq<Genre>,
    joins: seq<Join>,
    selections: seq<Selection>,
    bookSelections: seq<BookSelection>)

  /** Why a handler stopped: the exception the source raises at that point. */
  datatype Error =
    | NoSuchBook        // `.one()` found no book, or `.first()` gave None and an attribute was read from it
    | ImageCountNotOne  // `.one()` on the book's images found none or several
    | UnknownGenre      // a genre link names a genre id absent from `genres` (foreign-key violation)
    | UnknownBook       // a review names a book id absent from `books` (foreign-key violation)

  /** The book ids are pairwise different (the primary key). */
  ghost predicate UniqueBookIds(books: seq<Book>) {
    forall i, j | 0 <= i < |books| && 0 <= j < |books| && books[i].id == books[j].id :: i == j
  }

  /** The image ids are pairwise different (the primary key). */
  ghost predicate UniqueImageIds(images: seq<Image>) {
    forall i, j | 0 <= i < |images| && 0 <= j < |images| && images[i].id == images[j].id :: i == j
  }

  /** The genre-link ids are pairwise different (the primary key of `join`). */
  ghost predicate UniqueJoinIds(joins: seq<Join>) {
    forall i, j | 0 <= i < |joins| && 0 <= j < |joins| && joins[i].id == joins[j].id :: i == j
  }

  /** No two images carry the same content hash. */
  ghost predicate UniqueHashes(images: seq<Image>) {
    forall i, j | 0 <= i < |images| && 0 <= j < |images| && images[i].md5Hash == images[j].md5Hash :: i == j
  }

  /** `id` is larger than the id of every book: what an auto-increment key hands out next. */
  ghost predicate AboveAllBookIds(books: seq<Book>, id: int) {
    forall b | b in books :: b.id < id
  }

  /** Unique ids make every row of the table distinct. */
  lemma UniqueBookIdsAreDistinct(books: seq<Book>)
    requires UniqueBookIds(books)
    ensures Sequences.Distinct(books)
  {
    forall i, j | 0 <= i < j < |books| ensures books[i] != books[j] {
      assert books[i].id != books[j].id;
    }
  }

  /** A distinct selection of a table with unique book ids has unique book ids. */
  lemma UniqueBookIdsInSelection(books: seq<Book>, r: seq<Book>)
    requires UniqueBookIds(books)
    requires Sequences.Distinct(r)
    requires forall b | b in r :: b in books
    ensures UniqueBookIds(r)
  {
    forall i, j | 0 <= i < |r| && 0 <= j < |r| && r[i].id == r[j].id ensures i == j {
      assert r[i] in books && r[j] in books;
      var k :| 0 <= k < |books| && books[k] == r[i];
      var l :| 0 <= l < |books| && books[l] == r[j];
      assert r[i] == r[j];
    }
  }

  /** Appending a book whose id is above every stored id keeps the ids pairwise different. */
  lemma AppendFreshBookKeepsIdsUnique(books: seq<Book>, b: Book)
    requires UniqueBookIds(books) && AboveAllBookIds(books, b.id)
    ensures UniqueBookIds(books + [b])
  {
    var t := books + [b];
    forall i | 0 <= i < |books| ensures t[i].id != b.id {
      assert t[i] == books[i] && books[i] in books;
    }
  }

  /** Unique content hashes make every image row distinct. */
  lemma UniqueHashesAreDistinct(images: seq<Image>)
    requires UniqueHashes(images)
    ensures Sequences.Distinct(images)
  {
    forall i, j | 0 <= i < j < |images| ensures images[i] != images[j] {
      assert images[i].md5Hash != images[j].md5Hash;
    }
  }

  /** A distinct selection of images with unique hashes has unique hashes. */
  lemma UniqueHashesInSelection(images: seq<Image>, r: seq<Image>)
    requires UniqueHashes(images)
    requires Sequences.Distinct(r)
    requires forall img | img in r :: img in images
    ensures UniqueHashes(r)
  {
    forall i, j | 0 <= i < |r| && 0 <= j < |r| && r[i].md5Hash == r[j].md5Hash ensures i == j {
      assert r[i] in images && r[j] in images;
      var k :| 0 <= k < |images| && images[k] == r[i];
      var l :| 0 <= l < |images| && images[l] == r[j];
      assert r[i] == r[j];
    }
  }

  /** The position of the book with id `id` (`filter_by(id=...)`). */
  function FindBook(books: seq<Book>, id: int): (r: Option<nat>)
    ensures r.None? <==> forall b | b in books :: b.id != id
    ensures r.Some? ==> r.value < |books| && books[r.value].id == id
  {
    if |books| == 0 then None
    else if books[|books| - 1].id == id then Some(|books| - 1)
    else
      assert books == books[..|books| - 1] + [books[|books| - 1]];
      FindBook(books[..|books| - 1], id)
  }

  /** The images attached to book `bookId` (`Image.query.filter_by(book_id=...)`). */
  function ImagesOf(images: seq<Image>, bookId: int): (r: seq<Image>)
    ensures Sequences.SelectionOf(r, images, (img: Image) => img.bookId == bookId)
    ensures forall img :: img in r <==> img in images && img.bookId == bookId
    ensures (forall img | img in images :: img.bookId != bookId) ==> |r| == 0
  {
    Sequences.Filter(images, (img: Image) => img.bookId == bookId)
  }

  /** Whether a row of `reviews` survives the deletion of book `id`. */
  predicate ReviewKept(id: int, r: Review) { r.bookId != id }

  /** The reviews that survive the deletion of book `id`, in table order. */
  function KeptReviews(reviews: seq<Review>, id: int): (r: seq<Review>)
    ensures Sequences.SelectionOf(r, reviews, rv => ReviewKept(id, rv))
  {
    Sequences.Filter(reviews, rv => ReviewKept(id, rv))
  }

  /** Whether a row of `images` survives the deletion of book `id`. */
  predicate ImageKept(id: int, img: Image) { img.bookId != id }

  /** Whether a row of `join` survives the deletion of book `id`. */
  predicate JoinKept(id: int, j: Join) { j.bookId != id }

  /** Whether a row of `book_selection` survives the deletion of book `id`. */
  predicate BookSelectionKept(id: int, bs: BookSelection) { bs.bookId != id }

  /** Whether a row of `books` survives the deletion of book `id`. */
  predicate BookKept(id: int, b: Book) { b.id != id }

  /**
   * Removes book `id` and, through the cascading foreign keys, every review,
   * image, genre link and selection membership that refers to it. Rows of
   * other books, genres and selections stay as they were.
   */
  function CascadeDelete(s: Store, id: int): (t: Store)
    ensures forall b | b in t.books :: b.id != id
    ensures forall r | r in t.reviews :: r.bookId != id
    ensures forall img | img in t.images :: img.bookId != id
    ensures forall j | j in t.joins :: j.bookId != id
    ensures forall bs | bs in t.bookSelections :: bs.bookId != id
    ensures Sequences.SelectionOf(t.books, s.books, b => BookKept(id, b))
    ensures Sequences.SelectionOf(t.reviews, s.reviews, r => ReviewKept(id, r))
    ensures Sequences.SelectionOf(t.images, s.images, img => ImageKept(id, img))
    ensures Sequences.SelectionOf(t.joins, s.joins, j => JoinKept(id, j))
    ensures Sequences.SelectionOf(t.bookSelections, s.bookSelections, bs => BookSelectionKept(id, bs))
    ensures t.genres == s.genres && t.selections == s.selections
  {
    s.(books := Sequences.Filter(s.books, b => BookKept(id, b)),
       reviews := KeptReviews(s.reviews, id),
       images := Sequences.Filter(s.images, img => ImageKept(id, img)),
       joins := Sequences.Filter(s.joins, j => JoinKept(id, j)),
       bookSelections := Sequences.Filter(s.bookSelections, bs => BookSelectionKept(id, bs)))
  }

  /** The cascade keeps book ids and image hashes pairwise different. */
  lemma CascadeDeleteKeepsKeysUnique(s: Store, id: int)
    requires UniqueBookIds(s.books) && UniqueHashes(s.images)
    ensures UniqueBookIds(CascadeDelete(s, id).books)
    ensures UniqueHashes(CascadeDelete(s, id).images)
  {
    var t := CascadeDelete(s, id);
    Sequences.PermutedSelection(t.books, t.books, s.books, b => BookKept(id, b));
    UniqueBookIdsAreDistinct(s.books);
    Sequences.SubMultisetKeepsDistinct(s.books, t.books);
    UniqueBookIdsInSelection(s.books, t.books);
    Sequences.PermutedSelection(t.images, t.images, s.images, img => ImageKept(id, img));
    UniqueHashesAreDistinct(s.images);
    Sequences.SubMultisetKeepsDistinct(s.images, t.images);
    UniqueHashesInSelection(s.images, t.images);
  }
}

=== FILE: images.dfy ===
/**
 * `ImageSaver`: stores an uploaded file's metadata once per content hash.
 * A second upload of the same bytes finds the stored image by its hash and
 * returns it untouched; otherwise one new row is inserted under a fresh id.
 *
 * The digest, the UUID and the file-name sanitiser are third-party calls:
 * they arrive as the fields of `Foreign` and the `newId` parameter.
 */
module ImageStore {
  import opened Wrappers
  import opened Models
  import Catalogue

  /** An uploaded file as the request delivers it. */
  datatype Upload = Upload(filename: string, mimeType: string, content: seq<bv8>)

  /** The library functions the core calls but does not define. */
  datatype Foreign = Foreign(
    md5Hex: seq<bv8> -> string,         // hashlib.md5(...).hexdigest()
    secureFilename: string -> string,   // werkzeug's secure_filename
    clean: string -> string)            // bleach.clean

  /** The position of the first image carrying hash `h` (`filter(md5_hash == h).first()`). */
  function FirstWithHash(images: seq<Image>, h: string): (k: Option<nat>)
    ensures k.None? <==> forall img | img in images :: img.md5Hash != h
    ensures k.Some? ==> k.value < |images| && images[k.value].md5Hash == h
    ensures k.Some? ==> forall j | 0 <= j < k.value :: images[j].md5Hash != h
  {
    if |images| == 0 then None
    else if images[0].md5Hash == h then Some(0)
    else
      var k := FirstWithHash(images[1..], h);
      assert images == [images[0]] + images[1..];
      if k.Some? then Some(k.value + 1) else None
  }

  /** `__find_by_md5_hash`: the first stored image whose content hash is `h`, if any. */
  function FindByHash(images: seq<Image>, h: string): (r: Option<Image>)
    ensures r.None? <==> forall img | img in images :: img.md5Hash != h
    ensures r.Some? ==> r.value in images && r.value.md5Hash == h
  {
    match FirstWithHash(images, h)
    case Some(k) => Some(images[k])
    case None => None
  }

  /** The image returned by a save and the `images` table after it. */
  datatype Saved = Saved(image: Image, images: seq<Image>)

  /**
   * `ImageSaver(file).save(bookId)`. On a hash hit the stored image is
   * returned and nothing changes, its own `book_id` included. On a miss one
   * row is appended: the fresh id, the sanitised file name, the upload's
   * mime type, the content hash and `bookId`.
   */
  function Save(images: seq<Image>, lib: Foreign, file: Upload, bookId: int, newId: string): (s: Saved)
    requires forall img | img in images :: img.id != newId
    ensures s.image in s.images && s.image.md5Hash == lib.md5Hex(file.content)
    ensures FindByHash(images, lib.md5Hex(file.content)).Some? ==>
              s.images == images && s.image == FindByHash(images, lib.md5Hex(file.content)).value
    ensures FindByHash(images, lib.md5Hex(file.content)).None? ==>
              && |s.images| == |images| + 1
              && s.images[..|images|] == images
              && s.images[|images|] == s.image
              && s.image.id == newId
              && s.image.filename == lib.secureFilename(file.filename)
              && s.image.mimeType == file.mimeType
              && s.image.bookId == bookId
  {
    var h := lib.md5Hex(file.content);
    match FindByHash(images, h)
    case Some(img) => Saved(img, images)
    case None =>
      var img := Image(newId, lib.secureFilename(file.filename), file.mimeType, h, bookId);
      Saved(img, images + [img])
  }

  /** Saving the same bytes twice returns the same image, and the second save changes nothing. */
  lemma SaveTwiceSameImage(images: seq<Image>, lib: Foreign, f1: Upload, f2: Upload,
                           book1: int, book2: int, id1: string, id2: string)
    requires forall img | img in images :: img.id != id1
    requires id1 != id2 && forall img | img in images :: img.id != id2
    requires f1.content == f2.content
    ensures var first := Save(images, lib, f1, book1, id1);
            var second := Save(first.images, lib, f2, book2, id2);
            second.image == first.image && second.images == first.images
  {
    var h := lib.md5Hex(f1.content);
    var first := Save(images, lib, f1, book1, id1);
    if FindByHash(images, h).None? {
      assert first.images == images + [first.image];
      var k := FirstWithHash(first.images, h);
      assert k == Some(|images|) by {
        assert forall j | 0 <= j < |images| :: first.images[j] == images[j];
      }
    }
  }

  /** A save keeps the content hashes pairwise different. */
  lemma SaveKeepsHashesUnique(images: seq<Image>, lib: Foreign, file: Upload, bookId: int, newId: string)
    requires forall img | img in images :: img.id != newId
    requires Catalogue.UniqueHashes(images)
    ensures Catalogue.UniqueHashes(Save(images, lib, file, bookId, newId).images)
  {
    var s := Save(images, lib, file, bookId, newId);
    if FindByHash(images, lib.md5Hex(file.content)).None? {
      forall i | 0 <= i < |images| ensures s.images[i].md5Hash != s.image.md5Hash {
        assert s.images[i] == images[i];
        assert images[i] in images;
      }
    }
  }

  /** A save keeps the image ids pairwise different, given a fresh id for a new row. */
  lemma SaveKeepsIdsUnique(images: seq<Image>, lib: Foreign, file: Upload, bookId: int, newId: string)
    requires forall img | img in images :: img.id != newId
    requires Catalogue.UniqueImageIds(images)
    ensures Catalogue.UniqueImageIds(Save(images, lib, file, bookId, newId).images)
  {
    var s := Save(images, lib, file, bookId, newId);
    if FindByHash(images, lib.md5Hex(file.content)).None? {
      forall i | 0 <= i < |images| ensures s.images[i].id != newId {
        assert s.images[i] == images[i];
        assert images[i] in images;
      }
    }
  }
}

=== FILE: models.dfy ===
/**
 * The catalogue's records (one datatype per table) and the derived
 * properties the record classes compute: a book's average rating, a user's
 * display name and role tests, and an image's storage file name.
 *
 * Timestamps (`created_at`) are integers: only their order matters here.
 * Integer columns are unbounded integers.
 */
module Models {
  import opened Wrappers
  import Text

  /** A row of `books`. `ratingSum`/`ratingNum` are the running totals of the book's reviews. */
  datatype Book = Book(
    id: int,
    name: string,
    shortDesc: string,
    publicationYear: int,
    publishingHouse: string,
    author: string,
    volume: int,
    ratingSum: int,
    ratingNum: int,
    createdAt: int)

  /** A row of `users`; `middleName` and `roleId` are nullable columns. */
  datatype User = User(
    id: int,
    login: string,
    passwordHash: string,
    lastName: string,
    firstName: string,
    middleName: Option<string>,
    createdAt: int,
    roleId: Option<int>)

  /** A row of `reviews`. */
  datatype Review = Review(id: int, bookId: int, userId: int, rating: int, text: string, createdAt: int)

  /** A row of `images`; `id` is a generated UUID string and `md5Hash` the content digest. */
  datatype Image = Image(id: string, filename: string, mimeType: string, md5Hash: string, bookId: int)

  /** A row of `genres`. */
  datatype Genre = Genre(id: int, name: string)

  /** A row of `join`: one genre attached to one book. */
  datatype Join = Join(id: int, bookId: int, genreId: int)

  /** A row of `selections`: a named collection owned by a user. */
  datatype Selection = Selection(id: int, name: string, userId: int)

  /** A row of `book_selection`: one book placed in one selection. */
  datatype BookSelection = BookSelection(id: int, selectionId: int, bookId: int)

  /**
   * The role ids read from the application configuration. A key that is
   * not configured reads as `None`, as `app.config.get` returns it.
   */
  datatype RoleConfig = RoleConfig(adminRoleId: Option<int>, moderRoleId: Option<int>, userRoleId: Option<int>)

  /** The configured role ids are all present and pairwise different. */
  predicate DistinctRoles(cfg: RoleConfig) {
    && cfg.adminRoleId.Some? && cfg.moderRoleId.Some? && cfg.userRoleId.Some?
    && cfg.adminRoleId != cfg.moderRoleId
    && cfg.adminRoleId != cfg.userRoleId
    && cfg.moderRoleId != cfg.userRoleId
  }

  /** `is_admin`: the configured admin id equals the user's role id (an absent one included). */
  predicate IsAdmin(cfg: RoleConfig, u: User) {
    cfg.adminRoleId == u.roleId
  }

  /** `is_moder`: the configured moderator id equals the user's role id. */
  predicate IsModer(cfg: RoleConfig, u: User) {
    cfg.moderRoleId == u.roleId
  }

  /** `is_user`: the configured regular-user id equals the user's role id. */
  predicate IsUser(cfg: RoleConfig, u: User) {
    cfg.userRoleId == u.roleId
  }

  /** With distinct configured ids, a user passes at most one of the three role tests. */
  lemma RoleTestsExclusive(cfg: RoleConfig, u: User)
    requires DistinctRoles(cfg)
    ensures !(IsAdmin(cfg, u) && IsModer(cfg, u))
    ensures !(IsAdmin(cfg, u) && IsUser(cfg, u))
    ensures !(IsModer(cfg, u) && IsUser(cfg, u))
  {
  }

  /**
   * Each role test compares ids for equality, so when the admin id is not
   * configured a user without a role passes `is_admin`.
   */
  lemma RolelessUserIsAdminWhenUnconfigured(cfg: RoleConfig, u: User)
    requires cfg.adminRoleId.None? && u.roleId.None?
    ensures IsAdmin(cfg, u)
  {
  }

  /** `rating`: the mean of the book's reviews, 0 while it has none. */
  function Rating(b: Book): (r: real)
    ensures b.ratingNum <= 0 ==> r == 0.0
    ensures b.ratingNum > 0 ==> r * (b.ratingNum as real) == b.ratingSum as real
  {
    if b.ratingNum > 0 then (b.ratingSum as real) / (b.ratingNum as real) else 0.0
  }

  /**
   * `full_name`: last, first and middle name separated by single spaces, the
   * middle name read as "" when absent (so the name then ends in a space).
   */
  function FullName(u: User): (r: string)
    ensures |r| == |u.lastName| + |u.firstName| + |u.middleName.GetOr("")| + 2
    ensures r[..|u.lastName|] == u.lastName
    ensures r[|u.lastName|] == ' '
    ensures r[|u.lastName| + 1..|u.lastName| + 1 + |u.firstName|] == u.firstName
    ensures r[|u.lastName| + 1 + |u.firstName|] == ' '
    ensures r[|u.lastName| + 2 + |u.firstName|..] == u.middleName.GetOr("")
    ensures u.middleName.None? ==> r[|r| - 1] == ' '
  {
    var last, first, middle := u.lastName, u.firstName, u.middleName.GetOr("");
    var r := Text.JoinWithSpaces([last, first, middle]);
    assert [last, first, middle][1..] == [first, middle];
    assert [first, middle][1..] == [middle];
    assert Text.JoinWithSpaces([middle]) == middle;
    assert Text.JoinWithSpaces([first, middle]) == first + " " + middle;
    assert r == last + " " + (first + " " + middle);
    r
  }

  /** `storage_filename`: the image id followed by the extension of its file name. */
  function StorageFilename(img: Image): (r: string)
    ensures |r| >= |img.id| && r[..|img.id|] == img.id
    ensures |r| - |img.id| <= |img.filename|
    ensures r[|img.id|..] == img.filename[|img.filename| - (|r| - |img.id|)..]
    ensures r == img.id || (r[|img.id|] == '.' && '.' !in r[|img.id| + 1..])
    ensures r == img.id <==>
              var name := img.filename;
              Text.LastIndexOf(name, '.') <= Text.LastIndexOf(name, '/')
              || !Text.HasNonDotBetween(name, Text.LastIndexOf(name, '/'), Text.LastIndexOf(name, '.'))
  {
    var ext := Text.Extension(img.filename);
    var r := img.id + ext;
    assert r[|img.id|..] == ext;
    assert ext != [] ==> r[|img.id| + 1..] == ext[1..];
    r
  }
}

=== FILE: policy.dfy ===
/**
 * The role-based access policy: one rule per policy method, each reading
 * only the current user's role, and `User.can`, which looks a rule up by
 * its method name and denies every name that has no rule.
 */
module Policy {
  import opened Wrappers
  import opened Models

  /** The policy methods of `UsersPolicy`. */
  datatype Action = Create | Delete | Update | AssignRole | View | CreateSelection

  /** The method name under which each rule is defined. */
  function MethodName(a: Action): string {
    match a
    case Create => "create"
    case Delete => "delete"
    case Update => "update"
    case AssignRole => "assign_role"
    case View => "view"
    case CreateSelection => "create_selection"
  }

  /** The rule a name resolves to, or `None` for a name with no policy method. */
  function LookupMethod(name: string): (a: Option<Action>)
    ensures a.Some? ==> MethodName(a.value) == name
  {
    if name == "create" then Some(Create)
    else if name == "delete" then Some(Delete)
    else if name == "update" then Some(Update)
    else if name == "assign_role" then Some(AssignRole)
    else if name == "view" then Some(View)
    else if name == "create_selection" then Some(CreateSelection)
    else None
  }

  /**
   * The decision of one policy method for the current user. The policy is
   * constructed with a `record`, which no rule reads.
   */
  function Decide<R>(cfg: RoleConfig, current: User, a: Action, record: R): (allowed: bool)
    ensures allowed ==> IsAdmin(cfg, current) || IsModer(cfg, current) || IsUser(cfg, current)
    ensures DistinctRoles(cfg) && IsAdmin(cfg, current) ==> (allowed <==> a != CreateSelection)
  {
    match a
    case Create => IsAdmin(cfg, current)
    case Delete => IsAdmin(cfg, current)
    case Update => IsAdmin(cfg, current) || IsModer(cfg, current)
    case AssignRole => IsAdmin(cfg, current)
    case View => IsAdmin(cfg, current)
    case CreateSelection => IsUser(cfg, current)
  }

  /**
   * `User.can(action, record)`: the named policy method's decision, or false
   * when there is none. The rules read the logged-in `current_user`, not
   * the user `can` is called on, so that user is not a parameter here.
   */
  function Can<R>(cfg: RoleConfig, current: User, action: string, record: R): (allowed: bool)
    ensures allowed ==> action in {"create", "delete", "update", "assign_role", "view", "create_selection"}
    ensures LookupMethod(action).Some? ==> allowed == Decide(cfg, current, LookupMethod(action).value, record)
  {
    match LookupMethod(action)
    case Some(a) => Decide(cfg, current, a, record)
    case None => false
  }

  /** The role tests a grant may name. */
  datatype RoleTest = AdminTest | ModerTest | UserTest

  /** Whether the user passes one role test. */
  predicate Passes(cfg: RoleConfig, u: User, t: RoleTest) {
    match t
    case AdminTest => IsAdmin(cfg, u)
    case ModerTest => IsModer(cfg, u)
    case UserTest => IsUser(cfg, u)
  }

  /** The access table as data: which role test grants which action. */
  function Grants(): set<(Action, RoleTest)> {
    { (Create, AdminTest), (Delete, AdminTest),
      (Update, AdminTest), (Update, ModerTest),
      (AssignRole, AdminTest), (View, AdminTest),
      (CreateSelection, UserTest) }
  }

  /** A role test that grants the action and that the user passes. */
  predicate Granted(cfg: RoleConfig, u: User, a: Action, t: RoleTest) {
    (a, t) in Grants() && Passes(cfg, u, t)
  }

  /** Every decision agrees with the access table: allowed exactly when some granting test passes. */
  lemma DecideFollowsGrantTable<R>(cfg: RoleConfig, u: User, a: Action, record: R)
    ensures Decide(cfg, u, a, record) <==> exists t :: Granted(cfg, u, a, t)
  {
    if Decide(cfg, u, a, record) {
      var t := if a == CreateSelection then UserTest
               else if IsAdmin(cfg, u) then AdminTest
               else ModerTest;
      assert Granted(cfg, u, a, t);
    }
  }

  /** `create`, `delete`, `assign_role` and `view` are allowed exactly to the admin role id. */
  lemma AdminOnlyActions<R>(cfg: RoleConfig, u: User, a: Action, record: R)
    requires a in {Create, Delete, AssignRole, View}
    ensures Decide(cfg, u, a, record) <==> u.roleId == cfg.adminRoleId
  {
  }

  /** `update` is allowed exactly to the admin and the moderator role ids. */
  lemma UpdateForAdminOrModerator<R>(cfg: RoleConfig, u: User, record: R)
    ensures Decide(cfg, u, Update, record) <==> u.roleId == cfg.adminRoleId || u.roleId == cfg.moderRoleId
  {
  }

  /** `create_selection` is allowed exactly to the regular-user role id; being admin does not grant it. */
  lemma CreateSelectionForUsersOnly<R>(cfg: RoleConfig, u: User, record: R)
    ensures Decide(cfg, u, CreateSelection, record) <==> u.roleId == cfg.userRoleId
    ensures DistinctRoles(cfg) && IsAdmin(cfg, u) ==> !Decide(cfg, u, CreateSelection, record)
  {
  }

  /** With distinct role ids a moderator may update but nothing reserved to the admin. */
  lemma ModeratorPermissions<R>(cfg: RoleConfig, u: User, record: R)
    requires DistinctRoles(cfg) && IsModer(cfg, u)
    ensures Decide(cfg, u, Update, record)
    ensures !Decide(cfg, u, Create, record) && !Decide(cfg, u, Delete, record)
    ensures !Decide(cfg, u, AssignRole, record) && !Decide(cfg, u, View, record)
    ensures !Decide(cfg, u, CreateSelection, record)
  {
  }

  /** No decision depends on the record the policy was constructed with. */
  lemma DecisionIgnoresRecord<R>(cfg: RoleConfig, u: User, a: Action, r1: R, r2: R)
    ensures Decide(cfg, u, a, r1) == Decide(cfg, u, a, r2)
  {
  }

  /** Looking a rule up by its own method name finds it, so `can` reaches every rule. */
  lemma LookupFindsEveryRule(a: Action)
    ensures LookupMethod(MethodName(a)) == Some(a)
  {
  }

  /** `can` with a method's name gives that method's decision; any other name is denied. */
  lemma CanDispatchesByName<R>(cfg: RoleConfig, u: User, name: string, record: R)
    ensures (exists a :: MethodName(a) == name) ==>
              exists a :: MethodName(a) == name && Can(cfg, u, name, record) == Decide(cfg, u, a, record)
    ensures (forall a :: MethodName(a) != name) ==> !Can(cfg, u, name, record)
  {
    if exists a :: MethodName(a) == name {
      var a :| MethodName(a) == name;
      LookupFindsEveryRule(a);
    }
  }
}

=== FILE: queries.dfy ===
/**
 * The query composition of `BooksFilter` and `ReviewsFilter`, and the
 * choice among the review orderings that the review listing makes from its
 * `sort` form field. A query's result is the sequence of rows it yields;
 * ORDER BY on a single column is an ordering by that key in which the
 * database fixes no order among ties.
 */
module Queries {
  import opened Wrappers
  import opened Models
  import opened Sequences
  import Text
  import Catalogue

  /** The ordering key of `Book.created_at`. */
  function BookCreatedAt(b: Book): int { b.createdAt }

  /** The ordering key of `Review.created_at`. */
  function ReviewCreatedAt(r: Review): int { r.createdAt }

  /** The ordering key of `Review.rating`. */
  function ReviewRating(r: Review): int { r.rating }

  /** The name filter is applied only for a present, non-empty name (Python truthiness). */
  predicate NameGiven(name: Option<string>) {
    name.Some? && name.value != ""
  }

  /** Whether book `b` passes `Book.name.ilike('%' + q + '%')` for the search text `q`. */
  predicate NameMatches(q: string, b: Book) {
    Text.ContainsIgnoringCase(b.name, q)
  }

  /** Whether book `b` is kept by the search for `name`. */
  predicate BookSelected(name: Option<string>, b: Book) {
    !NameGiven(name) || NameMatches(name.value, b)
  }

  /** `__filter_by_name`: the WHERE clause of the book search, before ordering. */
  function SearchByName(books: seq<Book>, name: Option<string>): (r: seq<Book>)
    ensures SelectionOf(r, books, b => BookSelected(name, b))
  {
    if NameGiven(name) then Filter(books, b => NameMatches(name.value, b)) else books
  }

  /**
   * `BooksFilter(name).perform()`: the books whose name contains `name`
   * case-insensitively (every book when `name` is absent or empty),
   * newest first.
   */
  function BooksFilter(books: seq<Book>, name: Option<string>): (r: seq<Book>)
    ensures SelectionOf(r, books, b => BookSelected(name, b))
    ensures forall b :: b in r <==> b in books && BookSelected(name, b)
    ensures SortedBy(r, BookCreatedAt, Desc)
    ensures Catalogue.UniqueBookIds(books) ==> Catalogue.UniqueBookIds(r)
  {
    var filtered := SearchByName(books, name);
    var r := Sort(filtered, BookCreatedAt, Desc);
    PermutedSelection(r, filtered, books, b => BookSelected(name, b));
    assert Catalogue.UniqueBookIds(books) ==> Catalogue.UniqueBookIds(r) by {
      if Catalogue.UniqueBookIds(books) {
        Catalogue.UniqueBookIdsAreDistinct(books);
        SubMultisetKeepsDistinct(books, r);
        Catalogue.UniqueBookIdsInSelection(books, r);
      }
    }
    r
  }

  /** Without a search text the filter yields every book, each once, newest first. */
  lemma BooksFilterWithoutNameKeepsAll(books: seq<Book>, name: Option<string>)
    requires !NameGiven(name)
    ensures multiset(BooksFilter(books, name)) == multiset(books)
    ensures |BooksFilter(books, name)| == |books|
  {
    var r := BooksFilter(books, name);
    assert forall b :: multiset(r)[b] == multiset(books)[b];
    assert multiset(r) == multiset(books);
  }

  /** An absent name and an empty name give the same result. */
  lemma EmptyNameSameAsAbsent(books: seq<Book>)
    ensures BooksFilter(books, Some("")) == BooksFilter(books, None)
  {
  }

  /** A search text keeps exactly the books whose name contains it, in either letter case. */
  lemma BooksFilterByName(books: seq<Book>, q: string, b: Book)
    requires q != ""
    ensures b in BooksFilter(books, Some(q)) <==> b in books && Text.ContainsIgnoringCase(b.name, q)
    ensures b in BooksFilter(books, Some(q)) <==> b in BooksFilter(books, Some(Text.Lower(q)))
  {
    Text.ContainsIgnoresCase(b.name, q);
    Text.ContainsIgnoresCase(b.name, Text.Lower(q));
    Text.LowerIdempotent(q);
    if Text.Lower(q) == "" {
      Text.EmptyNeedleMatchesEverything(b.name);
    }
  }

  /** The four review orderings `ReviewsFilter` offers. */
  datatype ReviewOrder = DateDesc | DateAsc | RatingDesc | RatingAsc

  /** The column a review ordering sorts on. */
  function OrderKey(o: ReviewOrder): Review -> int {
    match o
    case DateDesc => ReviewCreatedAt
    case DateAsc => ReviewCreatedAt
    case RatingDesc => ReviewRating
    case RatingAsc => ReviewRating
  }

  /** The direction of a review ordering. */
  function OrderDirection(o: ReviewOrder): Direction {
    match o
    case DateDesc => Desc
    case DateAsc => Asc
    case RatingDesc => Desc
    case RatingAsc => Asc
  }

  /** Whether review `r` is in the scope `Review.query.filter_by(book_id=bookId)`. */
  predicate OfBook(bookId: int, r: Review) {
    r.bookId == bookId
  }

  /**
   * `ReviewsFilter(bookId).perform_*()`: the reviews of book `bookId`,
   * ordered as `o` says.
   */
  function ReviewsFilter(reviews: seq<Review>, bookId: int, o: ReviewOrder): (r: seq<Review>)
    ensures SelectionOf(r, reviews, rv => OfBook(bookId, rv))
    ensures forall rv :: rv in r <==> rv in reviews && rv.bookId == bookId
    ensures SortedBy(r, OrderKey(o), OrderDirection(o))
  {
    var scoped := Filter(reviews, rv => OfBook(bookId, rv));
    var r := Sort(scoped, OrderKey(o), OrderDirection(o));
    PermutedSelection(r, scoped, reviews, rv => OfBook(bookId, rv));
    r
  }

  /** The four orderings return the same reviews, each as often, and differ only in order. */
  lemma OrderingsArePermutations(reviews: seq<Review>, bookId: int, o1: ReviewOrder, o2: ReviewOrder)
    ensures multiset(ReviewsFilter(reviews, bookId, o1)) == multiset(ReviewsFilter(reviews, bookId, o2))
  {
    var r1 := ReviewsFilter(reviews, bookId, o1);
    var r2 := ReviewsFilter(reviews, bookId, o2);
    assert forall rv :: multiset(r1)[rv] == multiset(r2)[rv];
  }

  /** Review `a` may precede review `b` under ordering `o`, read off the columns directly. */
  predicate ColumnOrdered(o: ReviewOrder, a: Review, b: Review) {
    match o
    case DateDesc => a.createdAt >= b.createdAt
    case DateAsc => a.createdAt <= b.createdAt
    case RatingDesc => a.rating >= b.rating
    case RatingAsc => a.rating <= b.rating
  }

  /** Newest-first and oldest-first are sorted on `created_at`; best and worst first on `rating`. */
  lemma OrderingsSortTheirColumn(reviews: seq<Review>, bookId: int, o: ReviewOrder)
    ensures var r := ReviewsFilter(reviews, bookId, o);
            forall i, j | 0 <= i < j < |r| :: ColumnOrdered(o, r[i], r[j])
  {
    var r := ReviewsFilter(reviews, bookId, o);
    forall i, j | 0 <= i < j < |r| ensures ColumnOrdered(o, r[i], r[j]) {
      assert InOrder(OrderDirection(o), OrderKey(o)(r[i]), OrderKey(o)(r[j]));
    }
  }

  /**
   * The ordering `reviews_sort` picks from the `sort` form field: newest
   * first, then overridden by each recognised value in turn.
   */
  function SortChoice(sort: Option<string>): (o: ReviewOrder)
    ensures o == DateAsc <==> sort == Some("old")
    ensures o == RatingDesc <==> sort == Some("good")
    ensures o == RatingAsc <==> sort == Some("bad")
  {
    var o0 := DateDesc;
    var o1 := if sort == Some("new") then DateDesc else o0;
    var o2 := if sort == Some("old") then DateAsc else o1;
    var o3 := if sort == Some("good") then RatingDesc else o2;
    var o4 := if sort == Some("bad") then RatingAsc else o3;
    o4
  }

  /** The recognised sort values select their ordering; anything else, or nothing, is newest first. */
  lemma SortChoiceTable(sort: Option<string>)
    ensures sort == Some("new") ==> SortChoice(sort) == DateDesc
    ensures sort == Some("old") ==> SortChoice(sort) == DateAsc
    ensures sort == Some("good") ==> SortChoice(sort) == RatingDesc
    ensures sort == Some("bad") ==> SortChoice(sort) == RatingAsc
    ensures sort != Some("old") && sort != Some("good") && sort != Some("bad") ==> SortChoice(sort) == DateDesc
  {
  }

  /** The reviews of book `bookId` as the sorted listing shows them before pagination. */
  function ReviewsSort(reviews: seq<Review>, bookId: int, sort: Option<string>): (r: seq<Review>)
    ensures SelectionOf(r, reviews, rv => OfBook(bookId, rv))
    ensures forall rv :: rv in r <==> rv in reviews && rv.bookId == bookId
    ensures SortedBy(r, OrderKey(SortChoice(sort)), OrderDirection(SortChoice(sort)))
  {
    ReviewsFilter(reviews, bookId, SortChoice(sort))
  }

  /** An unrecognised sort value lists the reviews exactly as "new" does. */
  lemma UnknownSortIsNewest(reviews: seq<Review>, bookId: int, sort: Option<string>)
    requires sort != Some("new") && sort != Some("old") && sort != Some("good") && sort != Some("bad")
    ensures ReviewsSort(reviews, bookId, sort) == ReviewsSort(reviews, bookId, Some("new"))
  {
    SortChoiceTable(sort);
    SortChoiceTable(Some("new"));
  }
}

=== FILE: sequences.dfy ===
/**
 * Rows of a table as a sequence: selecting the rows a WHERE clause keeps
 * and ordering them by one integer column, as an ORDER BY does.
 */
module Sequences {

  /** The direction of an ORDER BY clause. */
  datatype Direction = Asc | Desc

  /** Whether key `a` may come before key `b` when ordering in direction `dir`. */
  predicate InOrder(dir: Direction, a: int, b: int) {
    match dir
    case Asc => a <= b
    case Desc => a >= b
  }

  /** Every row comes no later than the rows after it, by `key` in direction `dir`. */
  ghost predicate SortedBy<T>(s: seq<T>, key: T -> int, dir: Direction) {
    forall i, j | 0 <= i < j < |s| :: InOrder(dir, key(s[i]), key(s[j]))
  }

  /** No row occurs twice. */
  ghost predicate Distinct<T>(s: seq<T>) {
    forall i, j | 0 <= i < j < |s| :: s[i] != s[j]
  }

  /** `t` holds exactly the rows of `s` that satisfy `p`, each as often as in `s`. */
  ghost predicate SelectionOf<T(!new)>(t: seq<T>, s: seq<T>, p: T -> bool) {
    forall x :: multiset(t)[x] == if p(x) then multiset(s)[x] else 0
  }

  /** The rows of `s` that satisfy `p`, in their original order. */
  function Filter<T(!new)>(s: seq<T>, p: T -> bool): (r: seq<T>)
    ensures SelectionOf(r, s, p)
    ensures forall x :: x in r <==> x in s && p(x)
    ensures |r| <= |s|
    ensures (forall x | x in s :: !p(x)) ==> |r| == 0
  {
    if |s| == 0 then []
    else
      assert s == [s[0]] + s[1..];
      if p(s[0]) then [s[0]] + Filter(s[1..], p) else Filter(s[1..], p)
  }

  /** Prepending a row that may precede the first row of an ordered sequence keeps it ordered. */
  lemma ConsSorted<T>(x: T, s: seq<T>, key: T -> int, dir: Direction)
    requires SortedBy(s, key, dir)
    requires |s| > 0 ==> InOrder(dir, key(x), key(s[0]))
    ensures SortedBy([x] + s, key, dir)
  {
    var r := [x] + s;
    forall i, j | 0 <= i < j < |r| ensures InOrder(dir, key(r[i]), key(r[j])) {
      if i == 0 && j > 1 {
        assert InOrder(dir, key(s[0]), key(s[j - 1]));
      }
    }
  }

  /** Places `x` into the ordered sequence `s` before the first row it may precede. */
  function Insert<T>(x: T, s: seq<T>, key: T -> int, dir: Direction): (r: seq<T>)
    requires SortedBy(s, key, dir)
    ensures multiset(r) == multiset(s) + multiset{x}
    ensures |r| == |s| + 1
    ensures r[0] == x || (|s| > 0 && r[0] == s[0])
    ensures SortedBy(r, key, dir)
  {
    if |s| == 0 then [x]
    else if InOrder(dir, key(x), key(s[0])) then
      ConsSorted(x, s, key, dir);
      [x] + s
    else
      var rest := Insert(x, s[1..], key, dir);
      assert s == [s[0]] + s[1..];
      assert InOrder(dir, key(s[0]), key(rest[0])) by {
        if rest[0] != x {
          assert rest[0] == s[1];
        }
      }
      ConsSorted(s[0], rest, key, dir);
      [s[0]] + rest
  }

  /** The rows of `s` ordered by `key` in direction `dir` (insertion sort). */
  function Sort<T>(s: seq<T>, key: T -> int, dir: Direction): (r: seq<T>)
    ensures multiset(r) == multiset(s)
    ensures SortedBy(r, key, dir)
    ensures |r| == |s|
  {
    if |s| == 0 then []
    else
      assert s == [s[0]] + s[1..];
      Insert(s[0], Sort(s[1..], key, dir), key, dir)
  }

  /** The row at `i` occurs at least once, and twice when it reappears at `j`. */
  lemma OccurrenceCount<T>(s: seq<T>, i: int, j: int)
    requires 0 <= i < j < |s|
    ensures multiset(s)[s[i]] >= if s[i] == s[j] then 2 else 1
  {
    assert s == s[..j] + s[j..];
    assert s[i] == s[..j][i];
    assert s[j] == s[j..][0];
    assert multiset(s)[s[i]] == multiset(s[..j])[s[i]] + multiset(s[j..])[s[i]];
  }

  /** A sequence has no repeated row exactly when every row occurs at most once in its multiset. */
  lemma {:induction false} DistinctIffSingleCounts<T(!new)>(s: seq<T>)
    ensures Distinct(s) <==> forall x :: multiset(s)[x] <= 1
  {
    if |s| > 0 {
      var rest := s[1..];
      assert s == [s[0]] + rest;
      DistinctIffSingleCounts(rest);
      if Distinct(s) {
        assert Distinct(rest) by {
          forall i, j | 0 <= i < j < |rest| ensures rest[i] != rest[j] {
            assert rest[i] == s[i + 1] && rest[j] == s[j + 1];
          }
        }
        forall k | 0 <= k < |rest| ensures rest[k] != s[0] {
          assert rest[k] == s[k + 1];
        }
        assert s[0] !in rest;
      }
      if forall x :: multiset(s)[x] <= 1 {
        forall i, j | 0 <= i < j < |s| ensures s[i] != s[j] {
          OccurrenceCount(s, i, j);
        }
      }
    }
  }

  /** A sequence whose rows each occur no more often than in a sequence without repeats has no repeats. */
  lemma SubMultisetKeepsDistinct<T(!new)>(s: seq<T>, t: seq<T>)
    requires Distinct(s)
    requires multiset(t) <= multiset(s)
    ensures Distinct(t)
  {
    DistinctIffSingleCounts(s);
    DistinctIffSingleCounts(t);
    assert forall x :: multiset(t)[x] <= multiset(s)[x];
  }

  /** Reordering a selection keeps it a selection: same rows, same multiplicities. */
  lemma PermutedSelection<T(!new)>(r: seq<T>, f: seq<T>, s: seq<T>, p: T -> bool)
    requires SelectionOf(f, s, p)
    requires multiset(r) == multiset(f)
    ensures SelectionOf(r, s, p)
    ensures forall x :: x in r <==> x in s && p(x)
    ensures multiset(r) <= multiset(s)
  {
    forall x ensures x in r <==> x in s && p(x) {
      assert x in r <==> x in multiset(r);
      assert x in s <==> x in multiset(s);
    }
  }
}

=== FILE: text.dfy ===
/**
 * The string operations the catalogue relies on: ASCII case folding and
 * substring search (the `ilike '%q%'` book-name filter), splitting a file
 * name into stem and extension (`os.path.splitext` on POSIX paths), and
 * joining words with single spaces (`' '.join`).
 */
module Text {

  /** Folds an ASCII upper-case letter to lower case; every other character is kept. */
  function LowerChar(c: char): char {
    if 'A' <= c <= 'Z' then (c as int + 32) as char else c
  }

  /** `s` with every ASCII letter folded to lower case. */
  function Lower(s: string): (r: string)
    ensures |r| == |s|
    ensures forall i | 0 <= i < |s| :: r[i] == LowerChar(s[i])
  {
    seq(|s|, i requires 0 <= i < |s| => LowerChar(s[i]))
  }

  /** `needle` occurs in `hay` starting at position `i`. */
  predicate OccursAt(needle: string, hay: string, i: int) {
    0 <= i && i + |needle| <= |hay| && hay[i..i + |needle|] == needle
  }

  /** `needle` occurs in `hay` as a contiguous run of characters. */
  predicate IsSubstring(needle: string, hay: string) {
    exists i | 0 <= i <= |hay| :: OccursAt(needle, hay, i)
  }

  /** `needle` occurs in `hay` when ASCII letter case is ignored. */
  predicate ContainsIgnoringCase(hay: string, needle: string) {
    IsSubstring(Lower(needle), Lower(hay))
  }

  /** Folding case first changes nothing: the search already ignores case. */
  lemma LowerIdempotent(s: string)
    ensures Lower(Lower(s)) == Lower(s)
  {
  }

  /** Case-insensitive containment does not depend on the case of either argument. */
  lemma ContainsIgnoresCase(hay: string, needle: string)
    ensures ContainsIgnoringCase(hay, needle) == ContainsIgnoringCase(Lower(hay), Lower(needle))
  {
    LowerIdempotent(hay);
    LowerIdempotent(needle);
  }

  /** The empty needle occurs in every name, so `ilike '%%'` keeps every row. */
  lemma EmptyNeedleMatchesEverything(hay: string)
    ensures ContainsIgnoringCase(hay, "")
  {
    assert OccursAt(Lower(""), Lower(hay), 0);
  }

  /** The position of the last `c` in `s`, or -1 when `s` has none (Python's `str.rfind`). */
  function LastIndexOf(s: string, c: char): (r: int)
    ensures -1 <= r < |s|
    ensures r == -1 <==> c !in s
    ensures 0 <= r ==> s[r] == c && c !in s[r + 1..]
  {
    if |s| == 0 then -1
    else
      var init := s[..|s| - 1];
      assert s == init + [s[|s| - 1]];
      if s[|s| - 1] == c then |s| - 1
      else
        var r := LastIndexOf(init, c);
        assert c in s <==> c in init;
        assert 0 <= r ==> s[r + 1..] == init[r + 1..] + [s[|s| - 1]];
        r
  }

  /** Some character strictly between positions `lo` and `hi` of `p` is not a dot. */
  predicate HasNonDotBetween(p: string, lo: int, hi: int)
    requires -1 <= lo && hi <= |p|
  {
    exists k | lo < k < hi :: p[k] != '.'
  }

  /** Text from the last dot on, when that dot follows the last slash, is a dot and then neither dots nor slashes. */
  lemma ExtensionShape(p: string, sep: int, dot: int)
    requires sep == LastIndexOf(p, '/') && dot == LastIndexOf(p, '.')
    requires dot > sep
    ensures p[..dot] + p[dot..] == p
    ensures p[dot..][0] == '.' && '.' !in p[dot..][1..] && '/' !in p[dot..]
  {
    assert p[dot..][1..] == p[dot + 1..];
    forall k | dot <= k < |p| ensures p[k] != '/' {
      if sep >= 0 {
        assert p[sep + 1..][k - sep - 1] == p[k];
      } else {
        assert p[k] in p;
      }
    }
    forall x | x in p[dot..] ensures x != '/' {
      var i :| 0 <= i < |p[dot..]| && p[dot..][i] == x;
      assert x == p[dot + i];
    }
  }

  /**
   * Splits `p` into stem and extension the way `os.path.splitext` does on
   * POSIX: the extension starts at the last dot of the last path component,
   * unless everything before that dot in the component is dots (".bashrc"
   * has no extension).
   */
  function SplitExt(p: string): (parts: (string, string))
    ensures parts.0 + parts.1 == p
    ensures parts.1 == [] || (parts.1[0] == '.' && '.' !in parts.1[1..] && '/' !in parts.1)
    ensures parts.1 == [] <==>
              LastIndexOf(p, '.') <= LastIndexOf(p, '/')
              || !HasNonDotBetween(p, LastIndexOf(p, '/'), LastIndexOf(p, '.'))
  {
    var sep := LastIndexOf(p, '/');
    var dot := LastIndexOf(p, '.');
    if dot > sep && HasNonDotBetween(p, sep, dot) then
      ExtensionShape(p, sep, dot);
      (p[..dot], p[dot..])
    else
      (p, "")
  }

  /** The extension of `p` as `os.path.splitext` reports it: "" or a dot and what follows it. */
  function Extension(p: string): (ext: string)
    ensures |ext| <= |p| && p[|p| - |ext|..] == ext
    ensures ext == [] || (ext[0] == '.' && '.' !in ext[1..] && '/' !in ext)
    ensures ext == [] <==>
              LastIndexOf(p, '.') <= LastIndexOf(p, '/')
              || !HasNonDotBetween(p, LastIndexOf(p, '/'), LastIndexOf(p, '.'))
  {
    var parts := SplitExt(p);
    assert p[|p| - |parts.1|..] == parts.1;
    parts.1
  }

  /** The words of `parts` separated by single spaces (Python's `' '.join`). */
  function JoinWithSpaces(parts: seq<string>): (r: string)
    ensures |parts| == 0 ==> r == ""
    ensures |parts| > 0 ==> |r| >= |parts[0]| && r[..|parts[0]|] == parts[0]
  {
    if |parts| == 0 then ""
    else if |parts| == 1 then parts[0]
    else parts[0] + " " + JoinWithSpaces(parts[1..])
  }
}

=== FILE: wrappers.dfy ===
/** Failure-carrying results used by the request handlers and lookups. */
module Wrappers {

  /** A value that may be absent: a nullable column, a missing form field. */
  datatype Option<+T> = None | Some(value: T) {

    /** The wrapped value, or `default` when absent. */
    function GetOr(default: T): T {
      match this
      case Some(v) => v
      case None => default
    }
  }

  /** The outcome of an operation that either succeeds or raises. */
  datatype Result<+T, +E> = Ok(value: T) | Err(error: E)
}
